=== FILE: README.md ===
# Shop item manager, modelled in Dafny

`ShopItemManager` keeps shop items in one SQLite table, `shop_items`. It
offers three operations:

- `add_item` upper-cases the name. It then checks the fields in a fixed order: the amount
  must not be negative, the price must be a Python `float`, the best-before
  date must parse under `%Y-%m-%d`, and the date entered must parse under
  `%Y-%m-%d %H:%M:%S`. Only when all four checks pass does it insert a row.
  The insert itself can still fail. Binding an amount above 2^63-1 raises
  `OverflowError`, and a table whose ids are used up raises
  `sqlite3.OperationalError`.
- `get_items_by_type` returns the rows of one item type, in storage order.
- `calculate_total_price` sums the price column.

`add_item` and `get_items_by_type` are wrapped in `@error_handler @log_handler`. As a result, every
call prints exactly one line. That line is `Logging: <name> executed` on success. On an
exception it is `Error occurred: <message>`, and the exception is swallowed, so the call returns `None`.

The model is a set of pure functions over an immutable state:

- `Results`: the `Result`/`Option` types and the three Python exceptions
  that can reach the handler for the inputs modelled (`ValueError`,
  `OverflowError`, `sqlite3.OperationalError`). Inputs of other types and
  texts with lone surrogates are not modelled; see "Left out".
- `Ascii`: `str.upper` on ASCII letters.
- `Dates`: the two `strptime` patterns, modelled as fixed-width,
  zero-padded fields with calendar validity. It also has the matching zero-padded formatting.
  For each pattern, one round-trip lemma in each direction pins down exactly which texts are accepted.
- `DateExamples`: concrete texts the patterns accept or refuse.
- `ItemTable`: the schema, with one `Row` per table row. It also has the `AUTOINCREMENT` counter,
  the `INSERT`, the `WHERE item_type = ?` filter and the price sum.
- `ShopItems`: the manager. Its state is the table together with every line printed
  so far. It covers the decorators, the validation chain of `add_item`, the query, and the
  total.
- `Scenarios`: the two-item food store and an upper-casing round trip.

Three behaviours of the code are easy to misread, and the model keeps each one as written:

- The error line does not name the failing operation. It is only
  `Error occurred: <message>`.
- Names are not checked for emptiness. An empty name is stored.
- The custom messages of the two date guards cannot be printed. `strptime`
  raises its own `ValueError` on a bad date, and a parsed `datetime` is always
  truthy, so the guard never fires. The model keeps the guard as written, and
  `ShopItems.CustomDateMessagesUnreachable` proves that its message never appears.

## Model

| member | source | states |
|---|---|---|
| Ascii.Upper | task1.py:53 | the upper-cased name has the same length and no lower-case letter; every lower-case letter moves to its capital, and every other character is kept |
| Ascii.UpperIdempotent | task1.py:53 | upper-casing an already upper-cased name changes nothing |
| Ascii.UpperFixpoint | task1.py:53 | a name is left unchanged exactly when it has no lower-case letter |
| Ascii.UpperAppend | task1.py:53 | upper-casing works character by character, so it distributes over concatenation |
| Dates.DaysInMonth | task1.py:58 | month lengths are 28 to 31 days; February has 29 days exactly in Gregorian leap years; April, June, September and November have 30 |
| Dates.StrptimeDate | task1.py:58 | `%Y-%m-%d` yields only valid dates at midnight; every failure is the `time data ... does not match format` ValueError; a text not shaped `YYYY-MM-DD` always fails |
| Dates.StrptimeDateTime | task1.py:60 | `%Y-%m-%d %H:%M:%S` yields only valid date-times; every failure is the mismatch ValueError; a text not shaped `YYYY-MM-DD HH:MM:SS` always fails |
| Dates.ValueOfDigits | task1.py:58 | a zero-padded field reads back as the number written into it |
| Dates.DigitsOfValue | task1.py:58 | a digit field written back at its own width is the same text, leading zeros included |
| Dates.StrptimeDateOfFormat | task1.py:58 | every valid calendar date, once formatted, is accepted and parses back to itself |
| Dates.FormatOfStrptimeDate | task1.py:58 | every accepted date text is the canonical formatting of the date it yields |
| Dates.StrptimeDateTimeOfFormat | task1.py:60 | every valid date and time, once formatted, is accepted and parses back to itself |
| Dates.FormatOfStrptimeDateTime | task1.py:60 | every accepted date-time text is the canonical formatting of what it yields |
| DateExamples.LeapDayAccepted | task1.py:58 | 2024-02-29 is a best-before date that is accepted |
| DateExamples.NonLeapDayRefused | task1.py:58 | 2023-02-29 is well shaped but refused, because 2023 is not a leap year |
| DateExamples.MisshapenDatesRefused | task1.py:58 | slash-separated and day-first dates are refused |
| DateExamples.MisshapenDateTimeRefused | task1.py:60 | an ISO `T` separator is refused by the space-separated pattern |
| ItemTable.Empty | task1.py:24-32 | a freshly created `shop_items` table has no rows and satisfies the id invariant |
| ItemTable.Insert | task1.py:63-64 | an INSERT appends exactly one row carrying the next id and keeps the old rows as a prefix. It succeeds exactly when the amount fits a SQLite INTEGER (-2^63 to 2^63-1) and ids remain. Binding an amount outside that range raises `OverflowError` first. Otherwise, once the id space is used up, it raises `OperationalError` |
| ItemTable.InsertKeepsValid | task1.py:25 | AUTOINCREMENT ids stay positive and strictly increasing in storage order, and a new id exceeds every earlier one |
| ItemTable.RowsOfType | task1.py:70-71 | the query returns no more rows than are stored, and each returned row is stored and has the requested type |
| ItemTable.RowsOfTypeMembers | task1.py:70-71 | a row is returned exactly when it is stored and its type matches |
| ItemTable.RowsOfTypeAppend | task1.py:70-71 | filtering a concatenation filters each part and keeps them in order |
| ItemTable.RowsOfTypeSingleton | task1.py:70-71 | a single row is kept exactly when its type matches |
| ItemTable.RowsOfTypeEmpty | task1.py:70-71 | the result is empty exactly when no stored row has the type, which is not an error |
| ItemTable.RowsOfTypeAll | task1.py:70-71 | when every row has the type, the whole table is returned |
| ItemTable.RowsOfTypeOrdered | task1.py:70-71 | returned rows keep storage order, so their ids increase |
| ItemTable.SumPrices | task1.py:75-77 | the sum over no rows is 0 and over one row is that row's price; `ItemTable.SumPricesAppend` gives additivity |
| ItemTable.SumPricesAppend | task1.py:75-77 | the price sum is additive over concatenation |
| ItemTable.SumPricesByType | task1.py:75-77 | the total covers every row: it is the total of one type plus the total of all other types |
| ShopItems.Init | task1.py:18-21 | a new manager on a fresh database has an empty table, has printed nothing, and satisfies the invariant |
| ShopItems.LogHandler | task1.py:43-48 | the wrapped call's outcome passes through unchanged; the logging line is printed only when the call returns, and nothing is printed when it raises |
| ShopItems.ErrorHandler | task1.py:35-41 | an exception is swallowed: the call gives `None` and the error line is appended to what was printed; a returned value comes back as is, with the printed lines unchanged |
| ShopItems.Decorated | task1.py:35-48 | a doubly decorated call prints exactly one line: the logging line and the value on success, the error line and `None` on an exception |
| ShopItems.LogLinesDistinct | task1.py:40-46 | a logging line can never be mistaken for an error line |
| ShopItems.ErrorLinesEqual | task1.py:40 | two error lines are equal exactly when their exception messages are |
| ShopItems.CheckDate | task1.py:58-61 | a date guard passes exactly when `strptime` succeeds, and otherwise passes `strptime`'s own exception on |
| ShopItems.AddItemBody | task1.py:52-64 | the undecorated `add_item` succeeds exactly when all four field rules hold, the amount fits a SQLite INTEGER, and ids remain; on success it appends the row with the upper-cased name and the next id |
| ShopItems.AddItem | task1.py:50-65 | `add_item` prints one line and keeps the earlier output; the line is the logging line exactly when the input is accepted; an accepted input appends the new row, and a refused one leaves the table untouched |
| ShopItems.AddItemStores | task1.py:63-65 | the whole state after an accepted `add_item`: one row appended, the counter advanced, one logging line printed |
| ShopItems.AddItemCheckOrder | task1.py:54-61 | the first failing check, in source order, decides the printed error: negative amount, then non-float price, then best-before, then date entered, then an amount too large to bind, then a full table |
| ShopItems.ZeroAmountAccepted | task1.py:54-55 | an amount of exactly zero is allowed |
| ShopItems.OversizedAmountRejected | task1.py:63-64 | an amount above 2^63-1 passes the field checks but is refused when the INSERT binds it; only the `OverflowError` line is added |
| ShopItems.IntegerPriceRejected | task1.py:56-57 | an `int` price is refused once the amount check has passed, whatever its value, and only the error line is added |
| ShopItems.CustomDateMessagesUnreachable | task1.py:58-61 | neither date guard's custom message is ever printed |
| ShopItems.AddItemKeepsInvariant | task1.py:52-64 | every stored row has an upper-case name, an amount between 0 and 2^63-1, and valid dates, and ids increase, before and after any `add_item` |
| ShopItems.GetItemsByType | task1.py:67-72 | the query prints its logging line, changes no row, always returns a sequence rather than `None`, and returns only stored rows of the type |
| ShopItems.GetItemsByTypeExact | task1.py:69-72 | the query returns exactly the stored rows of the type, in id order, and is empty exactly when none match |
| ShopItems.AddThenQuery | task1.py:63-72 | after storing an item, querying its type returns the earlier matches followed by the new row, which carries the upper-cased name |
| ShopItems.CalculateTotalPrice | task1.py:74-78 | the total is the integer 0 exactly when the table is empty, because Python's `sum` starts from int 0; otherwise it is a float |
| ShopItems.TotalPriceAfterAddItem | task1.py:74-78 | the total is 0 on a fresh store, grows by exactly the stored price when an `add_item` is accepted, and is unchanged when one is refused |
| Scenarios.AppleAndBananaValid | task1.py:58-61 | the food example's dates pass both date checks |
| Scenarios.FoodScenario | task1.py:52-78 | storing the apple and the banana gives ids 1 and 2 with upper-cased names; the "food" query returns both, "nonexistent" returns an empty sequence, and the total is 2.25 |
| Scenarios.WidgetRoundTrip | task1.py:53-72 | an item named "widget", once stored, is found under its type as "WIDGET" |

## Left out

- The script at task1.py:80-100 is left out. It reads the six fields from the keyboard, converts them with `int()`/`float()`, and prints the results. This is interactive I/O outside the manager.
- `sqlite3.connect`, `commit` and the file on disk are not modelled. The database is the immutable `Table` value, and each call returns the next one. A connection or disk failure is not modelled. SQLite's column type affinity is also left out. `name` and `item_type` are TEXT, `amount` is INTEGER and `price` is REAL, so those values keep their types. The `DATE`/`DATETIME` columns have NUMERIC affinity, but the date texts are not numeric literals, so they stay TEXT.
- `create_table` is not a separate operation. `CREATE TABLE IF NOT EXISTS` on a fresh file gives `ItemTable.Empty`. Reopening an existing file is not modelled.
- Dates.StrptimeDate: only zero-padded, fixed-width fields are modelled. CPython's `strptime` also accepts one-digit months, days and clock fields such as `2024-6-1`, and that case is not modelled.
- Dates.StrptimeDate: only the ASCII digits `0`-`9` are digits here. CPython's `\d` also matches other Unicode decimal digits, so it accepts full-width `２０２４-０６-０１`, which the model refuses.
- Dates.StrptimeDateTime: only zero-padded, fixed-width fields with ASCII digits are modelled, as for the date pattern. CPython turns the space in the pattern into `\s+`, so it also accepts several spaces, a tab or a newline between date and time. The model accepts exactly one space.
- Dates.StrptimeDate: every failure carries the `time data ... does not match format ...` message. That matches CPython only when the pattern itself fails to match and the text contains no quote, backslash or non-printable character. CPython builds the message with `%r`, so for `x'y` it prints `time data "x'y"`, while the model prints `time data 'x'y'`. Other failures have different text in CPython. Trailing data (`2024-06-011`, or `2024-01-32`, where `3` is read as the day) gives `unconverted data remains: ...`. A well-shaped but impossible date gives `day is out of range for month`.
- Dates.StrptimeDateTime: the same holds for the date-time pattern. Its failures also carry the mismatch message, which matches CPython only when the pattern fails to match and the text contains no quote, backslash or non-printable character. A seconds field such as `62` gives `unconverted data remains`, and `60` gives `second must be in 0..59`. The model refuses the leap second `60`, as `datetime` does.
- ShopItems.AddItemCheckOrder: the order of the checks is exact, but a date failure's printed line uses the mismatch message above. So its text matches CPython only under the same two conditions.
- Ascii.Upper: only ASCII letters are upper-cased. Python's Unicode case mapping is not modelled, including mappings that change the length, such as `ß` to `SS`.
- ShopItems.CalculateTotalPrice: prices are real numbers, so NaN and infinite prices are not modelled. `float('nan')` passes `isinstance(price, float)`, but SQLite stores it as NULL. The un-decorated `sum` then raises `TypeError` on `None`. Infinite prices make the total infinite.
- ShopItems.TotalPriceAfterAddItem: the same exact-real price model applies, so it says nothing about NaN or infinite prices.
- ItemTable.SumPricesAppend: prices are exact reals. IEEE double rounding in the stored `REAL` values and in `sum` is not modelled, so `1.50 + 0.75 == 2.25` holds exactly.
- A `name` that is not a `str` raises `AttributeError` on `.upper()` before any check. This is not modelled: the name is always a string here. Likewise an `amount` that is not an integer is not modelled.
- A best-before or date-entered value that is not a `str` is not modelled. For example, `best_before=None` for an item without a best-before date makes `strptime` raise `TypeError`. The handler prints that error instead. Both dates are always strings here.
- Lone surrogates in `name`, `item_type` or a date are not modelled, because a Dafny `string` cannot hold them. A date with a lone surrogate never reaches the bind: neither `\d` nor `\s+` matches a surrogate, so `strptime` refuses it with its `ValueError`. A `name` or `item_type` with a lone surrogate makes the bind raise `UnicodeEncodeError`. In `add_item`, only an error line is printed.
- Other input types that pass every check are not modelled: `name` and `item_type` are always strings and `amount` is always an integer here. A `bytes` name has `.upper()` and is stored as a BLOB. A float amount such as `1.5` passes `amount < 0` and is stored as a REAL.
- ItemTable.RowsOfTypeMembers: `item_type` is always a string here. In the source, `item_type=None` passes every check of `add_item` and is stored as NULL. `item_type = ?` is never true for NULL, so that row is never returned, not even by `get_items_by_type(None)`, which returns `[]`.
- ShopItems.GetItemsByType: the result is always `Some` because its input is a Dafny `string`. For an `item_type` with a lone surrogate, the source's bind raises `UnicodeEncodeError`, and the call prints an error line and returns `None`.
- `add_item` returns `None` whether it succeeds or fails. The model returns the next manager state instead, because that state is the call's only observable effect besides the printed line.

=== FILE: ascii.dfy ===
/** ASCII case mapping, standing in for Python's `str.upper`. */
module Ascii {

  predicate IsLower(c: char) {
    'a' <= c <= 'z'
  }

  /** A string is upper case when no lower-case letter is left in it. */
  predicate IsUpperCase(s: string) {
    forall i :: 0 <= i < |s| ==> !IsLower(s[i])
  }

  function UpperChar(c: char): (u: char)
    ensures !IsLower(u)
    ensures IsLower(c) ==> 'A' <= u <= 'Z' && u as int + 32 == c as int
    ensures !IsLower(c) ==> u == c
  {
    if IsLower(c) then (c as int - 32) as char else c
  }

  /** Upper-cases every character of `s`; nothing else changes. */
  function Upper(s: string): (r: string)
    ensures |r| == |s|
    ensures IsUpperCase(r)
    ensures forall i :: 0 <= i < |s| && !IsLower(s[i]) ==> r[i] == s[i]
    ensures forall i :: 0 <= i < |s| && IsLower(s[i]) ==> r[i] as int + 32 == s[i] as int
  {
    seq(|s|, i requires 0 <= i < |s| => UpperChar(s[i]))
  }

  /** Upper-casing twice is the same as upper-casing once. */
  lemma UpperIdempotent(s: string)
    ensures Upper(Upper(s)) == Upper(s)
  {
  }

  /** `Upper` leaves a string unchanged exactly when it is already upper case. */
  lemma UpperFixpoint(s: string)
    ensures Upper(s) == s <==> IsUpperCase(s)
  {
    if IsUpperCase(s) {
      assert forall i :: 0 <= i < |s| ==> Upper(s)[i] == s[i];
    }
  }

  /** Upper-casing works character by character, so it distributes over
      concatenation. */
  lemma UpperAppend(a: string, b: string)
    ensures Upper(a + b) == Upper(a) + Upper(b)
  {
    assert forall i :: 0 <= i < |a + b| ==> Upper(a + b)[i] == (Upper(a) + Upper(b))[i];
  }
}

=== FILE: date_examples.dfy ===
/** Date texts that `%Y-%m-%d` and `%Y-%m-%d %H:%M:%S` accept or refuse. */
module DateExamples {
  import opened Dates

  /** Slashes and day-first order are refused by `%Y-%m-%d`. */
  lemma MisshapenDatesRefused()
    ensures !IsDateText("2024/01/01")
    ensures !IsDateText("01-01-2024")
  {
    assert "2024/01/01"[4] != '-';
    assert "01-01-2024"[4] != '-';
  }

  /** February 29th exists in a leap year. */
  lemma LeapDayAccepted()
    ensures IsDateText("2024-02-29")
  {
    LeapDayFormatted();
    StrptimeDateOfFormat(DateTime(2024, 2, 29, 0, 0, 0));
  }

  lemma LeapDayFormatted()
    ensures FormatDate(DateTime(2024, 2, 29, 0, 0, 0)) == "2024-02-29"
  {
  }

  /** February 29th does not exist outside a leap year, although the text
      has the right shape. */
  lemma NonLeapDayRefused()
    ensures DateShape("2023-02-29")
    ensures !IsDateText("2023-02-29")
  {
    assert "2023-02-29"[0..4] == "2023";
    assert "2023-02-29"[5..7] == "02";
    assert "2023-02-29"[8..10] == "29";
    assert Value("02") == 2;
    assert Value("29") == 29;
  }

  /** A `T` separator is refused by `%Y-%m-%d %H:%M:%S`. */
  lemma MisshapenDateTimeRefused()
    ensures !IsDateTimeText("2024-06-01T10:00:00")
  {
    assert "2024-06-01T10:00:00"[10] != ' ';
  }
}

=== FILE: dates.dfy ===
/** The two `datetime.strptime` patterns the manager validates with,
    `%Y-%m-%d` and `%Y-%m-%d %H:%M:%S`, modelled on their zero-padded,
    fixed-width form, together with the matching zero-padded formatting. A string is
    accepted exactly when it is the formatting of a valid calendar date
    (resp. date and time): the two round-trip lemmas at the end state both
    directions. */
module Dates {
  import opened Results

  const DateFormat := "%Y-%m-%d"
  const DateTimeFormat := "%Y-%m-%d %H:%M:%S"

  /** The broken-down time `strptime` produces; `%Y-%m-%d` leaves the clock
      fields at zero. */
  datatype DateTime = DateTime(year: nat, month: nat, day: nat, hour: nat, minute: nat, second: nat)

  predicate IsLeapYear(y: int) {
    y % 4 == 0 && (y % 100 != 0 || y % 400 == 0)
  }

  function DaysInMonth(y: int, m: int): (n: int)
    requires 1 <= m <= 12
    ensures 28 <= n <= 31
    ensures n == 29 <==> m == 2 && IsLeapYear(y)
    ensures n == 28 <==> m == 2 && !IsLeapYear(y)
    ensures n == 30 <==> m in {4, 6, 9, 11}
  {
    if m == 2 then (if IsLeapYear(y) then 29 else 28)
    else if m == 4 || m == 6 || m == 9 || m == 11 then 30
    else 31
  }

  /** The range `datetime` itself enforces: years 1..9999, a month, a day
      within that month, and a clock time with seconds below 60. */
  predicate ValidDateTime(d: DateTime) {
    && 1 <= d.year <= 9999
    && 1 <= d.month <= 12
    && 1 <= d.day <= DaysInMonth(d.year, d.month)
    && d.hour < 24
    && d.minute < 60
    && d.second < 60
  }

  predicate IsMidnight(d: DateTime) {
    d.hour == 0 && d.minute == 0 && d.second == 0
  }

  // ---------------------------------------------------------------------
  // Fixed-width decimal fields

  predicate IsDigit(c: char) {
    '0' <= c <= '9'
  }

  predicate AllDigits(s: string) {
    forall i :: 0 <= i < |s| ==> IsDigit(s[i])
  }

  function DigitValue(c: char): (n: nat)
    requires IsDigit(c)
    ensures n < 10
  {
    c as int - '0' as int
  }

  function DigitChar(n: nat): (c: char)
    requires n < 10
    ensures IsDigit(c) && DigitValue(c) == n
  {
    ('0' as int + n) as char
  }

  function Pow10(w: nat): (p: nat)
    ensures p >= 1
  {
    if w == 0 then 1 else 10 * Pow10(w - 1)
  }

  /** The value of a string of decimal digits, most significant first. */
  function Value(s: string): (n: nat)
    requires AllDigits(s)
    ensures n < Pow10(|s|)
  {
    if |s| == 0 then 0
    else 10 * Value(s[..|s| - 1]) + DigitValue(s[|s| - 1])
  }

  /** `n` written with exactly `width` digits, zero-padded on the left. */
  function Digits(n: nat, width: nat): (s: string)
    ensures |s| == width
    ensures AllDigits(s)
  {
    if width == 0 then ""
    else Digits(n / 10, width - 1) + [DigitChar(n % 10)]
  }

  /** Reading back a zero-padded field gives the number that was written,
      as long as it fits in the field. */
  lemma {:induction false} ValueOfDigits(n: nat, width: nat)
    requires n < Pow10(width)
    ensures Value(Digits(n, width)) == n
  {
    if width > 0 {
      var s := Digits(n, width);
      var init := Digits(n / 10, width - 1);
      assert s == init + [DigitChar(n % 10)];
      assert s[..|s| - 1] == init;
      assert n / 10 < Pow10(width - 1);
      ValueOfDigits(n / 10, width - 1);
      assert Value(s) == 10 * Value(init) + n % 10;
    }
  }

  /** Writing back the value of a digit string, at its own width, gives the
      string again: leading zeros are kept. */
  lemma {:induction false} DigitsOfValue(s: string)
    requires AllDigits(s)
    ensures Digits(Value(s), |s|) == s
  {
    if |s| > 0 {
      var init, last := s[..|s| - 1], s[|s| - 1];
      var n := Value(s);
      assert n / 10 == Value(init) && n % 10 == DigitValue(last);
      DigitsOfValue(init);
      assert DigitChar(DigitValue(last)) == last;
      assert s == init + [last];
    }
  }

  // ---------------------------------------------------------------------
  // The two patterns

  /** `YYYY-MM-DD`. */
  predicate DateShape(s: string) {
    && |s| == 10
    && AllDigits(s[0..4]) && s[4] == '-'
    && AllDigits(s[5..7]) && s[7] == '-'
    && AllDigits(s[8..10])
  }

  /** `YYYY-MM-DD HH:MM:SS`. */
  predicate DateTimeShape(s: string) {
    && |s| == 19
    && DateShape(s[..10]) && s[10] == ' '
    && AllDigits(s[11..13]) && s[13] == ':'
    && AllDigits(s[14..16]) && s[16] == ':'
    && AllDigits(s[17..19])
  }

  /** The year, month and day fields of a `YYYY-MM-DD` text, read as
      numbers; the clock fields are zero. */
  function DateFields(s: string): (d: DateTime)
    requires DateShape(s)
    ensures IsMidnight(d)
  {
    DateTime(Value(s[0..4]), Value(s[5..7]), Value(s[8..10]), 0, 0, 0)
  }

  /** The `ValueError` raised when `s` is not accepted under `format`. */
  function ParseError(s: string, format: string): Exception {
    ValueError("time data '" + s + "' does not match format '" + format + "'")
  }

  /** `datetime.strptime(s, '%Y-%m-%d')`. */
  function StrptimeDate(s: string): (r: Result<DateTime>)
    ensures r.Success? ==> ValidDateTime(r.value) && IsMidnight(r.value)
    ensures r.Failure? ==> r.error == ParseError(s, DateFormat)
    ensures !DateShape(s) ==> r.Failure?
  {
    if !DateShape(s) then Failure(ParseError(s, DateFormat))
    else
      var d := DateFields(s);
      if ValidDateTime(d) then Success(d) else Failure(ParseError(s, DateFormat))
  }

  /** `datetime.strptime(s, '%Y-%m-%d %H:%M:%S')`. */
  function StrptimeDateTime(s: string): (r: Result<DateTime>)
    ensures r.Success? ==> ValidDateTime(r.value)
    ensures r.Failure? ==> r.error == ParseError(s, DateTimeFormat)
    ensures !DateTimeShape(s) ==> r.Failure?
  {
    if !DateTimeShape(s) then Failure(ParseError(s, DateTimeFormat))
    else
      var d := DateFields(s[..10]).(hour := Value(s[11..13]), minute := Value(s[14..16]),
                                    second := Value(s[17..19]));
      if ValidDateTime(d) then Success(d) else Failure(ParseError(s, DateTimeFormat))
  }

  predicate IsDateText(s: string) {
    StrptimeDate(s).Success?
  }

  predicate IsDateTimeText(s: string) {
    StrptimeDateTime(s).Success?
  }

  /** The zero-padded `YYYY-MM-DD` formatting of `d`. */
  function FormatDate(d: DateTime): (s: string)
    ensures |s| == 10
  {
    Digits(d.year, 4) + "-" + Digits(d.month, 2) + "-" + Digits(d.day, 2)
  }

  /** The zero-padded `YYYY-MM-DD HH:MM:SS` formatting of `d`. */
  function FormatDateTime(d: DateTime): (s: string)
    ensures |s| == 19
  {
    FormatDate(d) + " " + Digits(d.hour, 2) + ":" + Digits(d.minute, 2) + ":" + Digits(d.second, 2)
  }

  lemma FormatDateFields(d: DateTime)
    ensures var s := FormatDate(d);
      && s[0..4] == Digits(d.year, 4) && s[4] == '-'
      && s[5..7] == Digits(d.month, 2) && s[7] == '-'
      && s[8..10] == Digits(d.day, 2)
      && DateShape(s)
  {
  }

  lemma FormatDateTimeFields(d: DateTime)
    ensures var s := FormatDateTime(d);
      && s[..10] == FormatDate(d) && s[10] == ' '
      && s[11..13] == Digits(d.hour, 2) && s[13] == ':'
      && s[14..16] == Digits(d.minute, 2) && s[16] == ':'
      && s[17..19] == Digits(d.second, 2)
      && DateTimeShape(s)
  {
    FormatDateFields(d);
  }

  /** A date-time text is the date text followed by the clock text. */
  lemma FormatDateTimeOfParts(d: DateTime, date: string, clock: string, whole: string)
    requires FormatDate(d) == date
    requires " " + Digits(d.hour, 2) + ":" + Digits(d.minute, 2) + ":" + Digits(d.second, 2) == clock
    requires date + clock == whole
    ensures FormatDateTime(d) == whole
  {
    assert FormatDateTime(d) == FormatDate(d)
      + (" " + Digits(d.hour, 2) + ":" + Digits(d.minute, 2) + ":" + Digits(d.second, 2));
  }

  /** A `YYYY-MM-DD` text whose fields are the zero-padded numbers `y`,
      `mo` and `d` reads back as exactly those numbers. */
  lemma DateFieldsOfDigits(s: string, y: nat, mo: nat, d: nat)
    requires y < 10000 && mo < 100 && d < 100
    requires |s| == 10 && s[4] == '-' && s[7] == '-'
    requires s[0..4] == Digits(y, 4) && s[5..7] == Digits(mo, 2) && s[8..10] == Digits(d, 2)
    ensures DateShape(s)
    ensures DateFields(s) == DateTime(y, mo, d, 0, 0, 0)
  {
    assert Pow10(4) == 10000 && Pow10(2) == 100;
    ValueOfDigits(y, 4);
    ValueOfDigits(mo, 2);
    ValueOfDigits(d, 2);
  }

  /** Formatting the fields read from a `YYYY-MM-DD` text gives the text
      back: leading zeros are kept. */
  lemma FormatOfDateFields(s: string)
    requires DateShape(s)
    ensures FormatDate(DateFields(s)) == s
  {
    var y, mo, d := s[0..4], s[5..7], s[8..10];
    DigitsOfValue(y);
    DigitsOfValue(mo);
    DigitsOfValue(d);
    assert FormatDate(DateFields(s)) == y + "-" + mo + "-" + d;
    assert s == y + [s[4]] + mo + [s[7]] + d;
  }

  /** Every valid date is accepted by `%Y-%m-%d` in its formatted form, and
      parses back to itself. */
  lemma {:induction false} StrptimeDateOfFormat(d: DateTime)
    requires ValidDateTime(d) && IsMidnight(d)
    ensures StrptimeDate(FormatDate(d)) == Success(d)
  {
    FormatDateFields(d);
    DateFieldsOfDigits(FormatDate(d), d.year, d.month, d.day);
  }

  /** Whatever `%Y-%m-%d` accepts is the formatting of the date it yields:
      the parser accepts nothing but canonical valid dates. */
  lemma {:induction false} FormatOfStrptimeDate(s: string)
    requires StrptimeDate(s).Success?
    ensures FormatDate(StrptimeDate(s).value) == s
  {
    FormatOfDateFields(s);
  }

  /** Every valid date and time is accepted by `%Y-%m-%d %H:%M:%S` in its
      formatted form, and parses back to itself. */
  lemma {:induction false} StrptimeDateTimeOfFormat(d: DateTime)
    requires ValidDateTime(d)
    ensures StrptimeDateTime(FormatDateTime(d)) == Success(d)
  {
    var s := FormatDateTime(d);
    FormatDateTimeFields(d);
    FormatDateFields(d);
    DateFieldsOfDigits(s[..10], d.year, d.month, d.day);
    assert Pow10(2) == 100;
    ValueOfDigits(d.hour, 2);
    ValueOfDigits(d.minute, 2);
    ValueOfDigits(d.second, 2);
  }

  /** Whatever `%Y-%m-%d %H:%M:%S` accepts is the formatting of the moment
      it yields. */
  lemma {:induction false} FormatOfStrptimeDateTime(s: string)
    requires StrptimeDateTime(s).Success?
    ensures FormatDateTime(StrptimeDateTime(s).value) == s
  {
    var date := s[..10];
    var d := StrptimeDateTime(s).value;
    FormatOfDateFields(date);
    assert FormatDate(d) == FormatDate(DateFields(date));
    DigitsOfValue(s[11..13]);
    DigitsOfValue(s[14..16]);
    DigitsOfValue(s[17..19]);
    assert s == date + [s[10]] + s[11..13] + [s[13]] + s[14..16] + [s[16]] + s[17..19];
  }
}

=== FILE: item_table.dfy ===
/** The `shop_items` table: its rows in storage order and the counter that
    `INTEGER PRIMARY KEY AUTOINCREMENT` keeps, with the three statements the
    manager issues against it (`INSERT`, `SELECT * ... WHERE item_type = ?`,
    `SELECT price`). */
module ItemTable {
  import opened Results

  /** Largest value of a SQLite INTEGER (2^63 - 1). */
  const MaxInteger: nat := 0x7FFF_FFFF_FFFF_FFFF

  /** Smallest value of a SQLite INTEGER (-2^63). */
  const MinInteger: int := -(MaxInteger as int) - 1

  /** Whether `n` can be bound as a SQLite INTEGER. */
  predicate FitsInteger(n: int) {
    MinInteger <= n <= MaxInteger
  }

  /** Largest rowid SQLite can assign. Once it has been used, an
      `AUTOINCREMENT` table refuses further inserts. */
  const MaxRowId: nat := MaxInteger

  /** The message of the `OverflowError` raised when a Python `int` outside
      the INTEGER range is bound as a statement parameter (two literals, so
      that the verifier sees its characters). */
  const OverflowMessage := "Python int too large " + "to convert to SQLite INTEGER"

  /** The message of the `sqlite3.OperationalError` for SQLITE_FULL. */
  const FullMessage := "database or disk is full"

  /** One row of `shop_items`, columns in schema order. */
  datatype Row = Row(
    id: nat,
    name: string,
    amount: int,
    price: real,
    bestBefore: string,
    dateEntered: string,
    itemType: string)

  /** The rows in storage (rowid) order, and the id the next insert gets:
      one more than the largest id ever assigned. */
  datatype Table = Table(rows: seq<Row>, nextId: nat)

  /** The table right after `CREATE TABLE IF NOT EXISTS` on a fresh file. */
  function Empty(): (t: Table)
    ensures t.rows == []
    ensures Valid(t)
  {
    Table([], 1)
  }

  /** What `AUTOINCREMENT` guarantees about the ids present: they are
      positive, below the counter, and increase in storage order. */
  predicate Valid(t: Table) {
    && 1 <= t.nextId
    && (forall i :: 0 <= i < |t.rows| ==> 1 <= t.rows[i].id < t.nextId)
    && (forall i, j :: 0 <= i < j < |t.rows| ==> t.rows[i].id < t.rows[j].id)
  }

  predicate IdsIncreasing(rows: seq<Row>) {
    forall i, j :: 0 <= i < j < |rows| ==> rows[i].id < rows[j].id
  }

  /** `INSERT INTO shop_items (...) VALUES (...)`: one row with a fresh id is
      appended. Binding the parameters comes first and refuses an amount
      outside the INTEGER range; running the statement then refuses with
      SQLITE_FULL once the id space is used up. */
  function Insert(t: Table, name: string, amount: int, price: real,
                  bestBefore: string, dateEntered: string, itemType: string): (r: Result<Table>)
    ensures r.Success? <==> FitsInteger(amount) && t.nextId <= MaxRowId
    ensures !FitsInteger(amount) ==> r == Failure(OverflowError(OverflowMessage))
    ensures FitsInteger(amount) && r.Failure? ==> r.error == OperationalError(FullMessage)
    ensures r.Success? ==>
      && |r.value.rows| == |t.rows| + 1
      && r.value.rows[..|t.rows|] == t.rows
      && r.value.rows[|t.rows|] == Row(t.nextId, name, amount, price, bestBefore, dateEntered, itemType)
      && r.value.nextId > t.nextId
  {
    if !FitsInteger(amount) then Failure(OverflowError(OverflowMessage))
    else if t.nextId > MaxRowId then Failure(OperationalError(FullMessage))
    else
      var row := Row(t.nextId, name, amount, price, bestBefore, dateEntered, itemType);
      Success(Table(t.rows + [row], t.nextId + 1))
  }

  /** An insert keeps the id invariant, and the new id is larger than every
      id already in the table. */
  lemma InsertKeepsValid(t: Table, name: string, amount: int, price: real,
                         bestBefore: string, dateEntered: string, itemType: string)
    requires Valid(t)
    requires Insert(t, name, amount, price, bestBefore, dateEntered, itemType).Success?
    ensures var t' := Insert(t, name, amount, price, bestBefore, dateEntered, itemType).value;
      && Valid(t')
      && forall i :: 0 <= i < |t.rows| ==> t.rows[i].id < t'.rows[|t.rows|].id
  {
  }

  // ---------------------------------------------------------------------
  // SELECT * FROM shop_items WHERE item_type = ?

  /** The rows whose `item_type` equals `itemType`, in storage order. */
  function RowsOfType(rows: seq<Row>, itemType: string): (r: seq<Row>)
    ensures |r| <= |rows|
    ensures forall i :: 0 <= i < |r| ==> r[i].itemType == itemType && r[i] in rows
  {
    if |rows| == 0 then []
    else
      var last := rows[|rows| - 1];
      RowsOfType(rows[..|rows| - 1], itemType) + (if last.itemType == itemType then [last] else [])
  }

  /** Filtering a concatenation filters each part and keeps them in order;
      with `RowsOfTypeSingleton` this pins the filter down completely. */
  lemma {:induction false} RowsOfTypeAppend(a: seq<Row>, b: seq<Row>, itemType: string)
    ensures RowsOfType(a + b, itemType) == RowsOfType(a, itemType) + RowsOfType(b, itemType)
  {
    if |b| > 0 {
      var ab := a + b;
      var last := b[|b| - 1];
      assert ab[..|ab| - 1] == a + b[..|b| - 1];
      assert ab[|ab| - 1] == last;
      RowsOfTypeAppend(a, b[..|b| - 1], itemType);
    } else {
      assert a + b == a;
    }
  }

  /** A single row is kept exactly when its type matches. */
  lemma RowsOfTypeSingleton(row: Row, itemType: string)
    ensures RowsOfType([row], itemType) == if row.itemType == itemType then [row] else []
  {
    assert [row][..0] == [];
  }

  /** A row is returned exactly when it is stored and has the requested type. */
  lemma {:induction false} RowsOfTypeMembers(rows: seq<Row>, itemType: string, x: Row)
    ensures x in RowsOfType(rows, itemType) <==> x in rows && x.itemType == itemType
  {
    if |rows| > 0 {
      var init := rows[..|rows| - 1];
      RowsOfTypeMembers(init, itemType, x);
      assert rows == init + [rows[|rows| - 1]];
    }
  }

  /** Nothing is returned exactly when no stored row has the type; this is an
      empty sequence, not an error. */
  lemma {:induction false} RowsOfTypeEmpty(rows: seq<Row>, itemType: string)
    ensures RowsOfType(rows, itemType) == [] <==> forall i :: 0 <= i < |rows| ==> rows[i].itemType != itemType
  {
    if RowsOfType(rows, itemType) == [] {
      forall i | 0 <= i < |rows|
        ensures rows[i].itemType != itemType
      {
        RowsOfTypeMembers(rows, itemType, rows[i]);
      }
    } else {
      var x := RowsOfType(rows, itemType)[0];
      RowsOfTypeMembers(rows, itemType, x);
    }
  }

  /** When every stored row has the type, the query returns the whole table. */
  lemma {:induction false} RowsOfTypeAll(rows: seq<Row>, itemType: string)
    requires forall i :: 0 <= i < |rows| ==> rows[i].itemType == itemType
    ensures RowsOfType(rows, itemType) == rows
  {
    if |rows| > 0 {
      var init := rows[..|rows| - 1];
      RowsOfTypeAll(init, itemType);
      assert rows == init + [rows[|rows| - 1]];
    }
  }

  /** Storage order is kept: the returned ids increase when the stored ones do. */
  lemma {:induction false} RowsOfTypeOrdered(rows: seq<Row>, itemType: string)
    requires IdsIncreasing(rows)
    ensures IdsIncreasing(RowsOfType(rows, itemType))
  {
    if |rows| > 0 {
      var init, last := rows[..|rows| - 1], rows[|rows| - 1];
      RowsOfTypeOrdered(init, itemType);
      var prefix := RowsOfType(init, itemType);
      forall x | x in prefix
        ensures x.id < last.id
      {
        RowsOfTypeMembers(init, itemType, x);
        var k :| 0 <= k < |init| && init[k] == x;
        assert rows[k] == x;
      }
    }
  }

  // ---------------------------------------------------------------------
  // SELECT price FROM shop_items, summed

  /** The sum of the `price` column. */
  function SumPrices(rows: seq<Row>): (s: real)
    ensures |rows| == 0 ==> s == 0.0
    ensures |rows| == 1 ==> s == rows[0].price
  {
    if |rows| == 0 then 0.0
    else SumPrices(rows[..|rows| - 1]) + rows[|rows| - 1].price
  }

  /** The sum is additive over concatenation. */
  lemma {:induction false} SumPricesAppend(a: seq<Row>, b: seq<Row>)
    ensures SumPrices(a + b) == SumPrices(a) + SumPrices(b)
  {
    if |b| > 0 {
      var ab := a + b;
      assert ab[..|ab| - 1] == a + b[..|b| - 1];
      SumPricesAppend(a, b[..|b| - 1]);
    } else {
      assert a + b == a;
    }
  }

  /** The rows that do not have type `itemType`, in storage order. */
  function RowsOtherThan(rows: seq<Row>, itemType: string): (r: seq<Row>)
    ensures forall i :: 0 <= i < |r| ==> r[i].itemType != itemType && r[i] in rows
  {
    if |rows| == 0 then []
    else
      var last := rows[|rows| - 1];
      RowsOtherThan(rows[..|rows| - 1], itemType) + (if last.itemType != itemType then [last] else [])
  }

  /** The total covers every row whatever its type: it splits into the total
      of one type and the total of all the others. */
  lemma {:induction false} SumPricesByType(rows: seq<Row>, itemType: string)
    ensures SumPrices(rows) == SumPrices(RowsOfType(rows, itemType)) + SumPrices(RowsOtherThan(rows, itemType))
  {
    if |rows| > 0 {
      var init, last := rows[..|rows| - 1], rows[|rows| - 1];
      SumPricesByType(init, itemType);
      SumPricesAppend(RowsOfType(init, itemType), if last.itemType == itemType then [last] else []);
      SumPricesAppend(RowsOtherThan(init, itemType), if last.itemType != itemType then [last] else []);
      assert SumPrices([last]) == last.price by {
        assert [last][..0] == [];
      }
    }
  }
}

=== FILE: results.dfy ===
/** Failure-compatible result type and the Python exception kinds the shop
    item manager can raise. */
module Results {

  /** The exception classes that reach the manager's error handler for the
      inputs modelled:
      `ValueError` from the field checks and from date parsing,
      `OverflowError` from binding an integer SQLite cannot hold, and
      `sqlite3.OperationalError` from the storage layer. `message` is what
      `str(e)` yields for the exception. */
  datatype Exception =
    | ValueError(message: string)
    | OverflowError(message: string)
    | OperationalError(message: string)

  /** What a call wrapped by the error handler returns: its result, or
      `None` when an exception was swallowed. */
  datatype Option<+T> = None | Some(value: T)

  /** Either the value an operation produced or the exception it raised. */
  datatype Result<+T> = Success(value: T) | Failure(error: Exception) {

    predicate IsFailure() {
      Failure?
    }

    function PropagateFailure<U>(): Result<U>
      requires Failure?
    {
      Failure(error)
    }

    function Extract(): T
      requires Success?
    {
      value
    }
  }
}

=== FILE: scenarios.dfy ===
/** Concrete runs of the manager: the two-item food store and the
    upper-casing round trip. */
module Scenarios {
  import opened Results
  import Ascii
  import opened Dates
  import opened ItemTable
  import opened ShopItems

  // ---------------------------------------------------------------------
  // The food example

  /** Best before 2025-01-01, entered 2024-06-01 10:00:00. */
  const Apple := ItemInput("apple", 5, Float(1.50),
    FormatDate(DateTime(2025, 1, 1, 0, 0, 0)), FormatDateTime(DateTime(2024, 6, 1, 10, 0, 0)), "food")
  /** Best before 2025-02-01, entered 2024-06-01 11:00:00. */
  const Banana := ItemInput("banana", 3, Float(0.75),
    FormatDate(DateTime(2025, 2, 1, 0, 0, 0)), FormatDateTime(DateTime(2024, 6, 1, 11, 0, 0)), "food")

  /** The example's dates, spelled out. */
  lemma ExampleDateTexts()
    ensures Apple.bestBefore == "2025-01-01"
    ensures Apple.dateEntered == "2024-06-01 10:00:00"
    ensures Banana.bestBefore == "2025-02-01"
    ensures Banana.dateEntered == "2024-06-01 11:00:00"
  {
    AppleBestBeforeText();
    AppleDateEnteredText();
    BananaBestBeforeText();
    BananaDateEnteredText();
  }

  lemma AppleBestBeforeText()
    ensures Apple.bestBefore == "2025-01-01"
  {
  }

  lemma AppleDateEnteredText()
    ensures Apple.dateEntered == "2024-06-01 10:00:00"
  {
    DateEnteredText(10, "10");
  }

  lemma BananaBestBeforeText()
    ensures Banana.bestBefore == "2025-02-01"
  {
  }

  lemma BananaDateEnteredText()
    ensures Banana.dateEntered == "2024-06-01 11:00:00"
  {
    DateEnteredText(11, "11");
  }

  /** 2024-06-01 at a whole hour `hh` (two digits), spelled out. */
  lemma DateEnteredText(hour: nat, hh: string)
    requires Digits(hour, 2) == hh
    ensures FormatDateTime(DateTime(2024, 6, 1, hour, 0, 0)) == "2024-06-01 " + hh + ":00:00"
  {
    var date, clock := "2024-06-01", " " + hh + ":00:00";
    JuneFirstText(hour);
    assert Digits(0, 2) == "00";
    assert " " + Digits(hour, 2) + ":" + Digits(0, 2) + ":" + Digits(0, 2) == clock;
    assert date + clock == "2024-06-01 " + hh + ":00:00";
    FormatDateTimeOfParts(DateTime(2024, 6, 1, hour, 0, 0), date, clock, "2024-06-01 " + hh + ":00:00");
  }

  lemma JuneFirstText(hour: nat)
    ensures FormatDate(DateTime(2024, 6, 1, hour, 0, 0)) == "2024-06-01"
  {
  }

  /** The example's own inputs meet the assumptions of `FoodScenario`. */
  lemma AppleAndBananaValid()
    ensures IsApple(Apple) && IsBanana(Banana)
  {
    StrptimeDateOfFormat(DateTime(2025, 1, 1, 0, 0, 0));
    StrptimeDateTimeOfFormat(DateTime(2024, 6, 1, 10, 0, 0));
    StrptimeDateOfFormat(DateTime(2025, 2, 1, 0, 0, 0));
    StrptimeDateTimeOfFormat(DateTime(2024, 6, 1, 11, 0, 0));
  }

  /** Storing the example's apple and banana in a fresh store: querying
      "food" returns both rows, ids 1 and 2 with upper-cased names, the total
      is 2.25, and an unknown type gives an empty result rather than an
      error. */
  lemma FoodScenario()
    ensures var m := AddItem(AddItem(Init(), Apple), Banana);
      && GetItemsByType(m, "food").1 == Some([AppleRow(Apple), BananaRow(Banana)])
      && CalculateTotalPrice(m) == Float(2.25)
      && GetItemsByType(m, "nonexistent").1 == Some([])
      && m.log == [LoggingLine("add_item"), LoggingLine("add_item")]
  {
    var apple, banana := Apple, Banana;
    var m := AddItem(AddItem(Init(), apple), banana);
    var added := LoggingLine("add_item");
    AppleAndBananaValid();
    FoodStore(apple, banana);
    assert m == Manager(Table([AppleRow(apple), BananaRow(banana)], 3), [added, added]);
    FoodQueries(m, AppleRow(apple), BananaRow(banana));
  }

  /** The state after storing an apple and then a banana whose dates
      parse. */
  lemma FoodStore(apple: ItemInput, banana: ItemInput)
    requires IsApple(apple) && IsBanana(banana)
    ensures var added := LoggingLine("add_item");
      AddItem(AddItem(Init(), apple), banana)
        == Manager(Table([AppleRow(apple), BananaRow(banana)], 3), [added, added])
  {
    StoreApple(apple);
    StoreBananaAfterApple(apple, banana);
  }

  lemma StoreBananaAfterApple(apple: ItemInput, banana: ItemInput)
    requires IsBanana(banana)
    ensures var added := LoggingLine("add_item");
      AddItem(Manager(Table([AppleRow(apple)], 2), [added]), banana)
        == Manager(Table([AppleRow(apple), BananaRow(banana)], 3), [added, added])
  {
    var added := LoggingLine("add_item");
    var m1 := Manager(Table([AppleRow(apple)], 2), [added]);
    StoreBanana(m1, banana);
    assert m1.table.rows + [BananaRow(banana)] == [AppleRow(apple), BananaRow(banana)];
  }


  /** Query and total over a store holding exactly the two food rows. */
  lemma FoodQueries(m: Manager, a: Row, b: Row)
    requires m.table.rows == [a, b]
    requires a.itemType == "food" && b.itemType == "food"
    requires a.price == 1.50 && b.price == 0.75
    ensures GetItemsByType(m, "food").1 == Some([a, b])
    ensures GetItemsByType(m, "nonexistent").1 == Some([])
    ensures CalculateTotalPrice(m) == Float(2.25)
  {
    RowsOfTypeAll(m.table.rows, "food");
    RowsOfTypeEmpty(m.table.rows, "nonexistent");
    SumPricesAppend([a], [b]);
    assert SumPrices([a]) == 1.50 by { assert [a][..0] == []; }
    assert SumPrices([b]) == 0.75 by { assert [b][..0] == []; }
  }

  predicate IsApple(apple: ItemInput) {
    && apple.name == "apple" && apple.amount == 5 && apple.price == Float(1.50) && apple.itemType == "food"
    && IsDateText(apple.bestBefore) && IsDateTimeText(apple.dateEntered)
  }

  predicate IsBanana(banana: ItemInput) {
    && banana.name == "banana" && banana.amount == 3 && banana.price == Float(0.75) && banana.itemType == "food"
    && IsDateText(banana.bestBefore) && IsDateTimeText(banana.dateEntered)
  }

  function AppleRow(apple: ItemInput): Row {
    Row(1, "APPLE", 5, 1.50, apple.bestBefore, apple.dateEntered, "food")
  }

  function BananaRow(banana: ItemInput): Row {
    Row(2, "BANANA", 3, 0.75, banana.bestBefore, banana.dateEntered, "food")
  }

  lemma StoreApple(apple: ItemInput)
    requires IsApple(apple)
    ensures AddItem(Init(), apple) == Manager(Table([AppleRow(apple)], 2), [LoggingLine("add_item")])
  {
    UpperApple();
    AddItemStores(Init(), apple);
  }

  lemma StoreBanana(m: Manager, banana: ItemInput)
    requires IsBanana(banana)
    requires |m.table.rows| == 1 && m.table.nextId == 2
    ensures AddItem(m, banana) == Manager(Table(m.table.rows + [BananaRow(banana)], 3), m.log + [LoggingLine("add_item")])
  {
    UpperBanana();
    AddItemStores(m, banana);
  }

  lemma UpperApple()
    ensures Ascii.Upper("apple") == "APPLE"
  {
  }

  lemma UpperBanana()
    ensures Ascii.Upper("banana") == "BANANA"
  {
  }

  /** An item named "widget", once stored, is found under its type with the
      name "WIDGET". */
  lemma WidgetRoundTrip(m: Manager, inp: ItemInput)
    requires inp.name == "widget"
    requires Accepted(m.table, inp)
    ensures var items := GetItemsByType(AddItem(m, inp), inp.itemType).1.value;
      |items| > 0 && items[|items| - 1].name == "WIDGET"
  {
    AddThenQuery(m, inp);
    assert Ascii.Upper("widget") == "WIDGET";
  }
}

=== FILE: shop_items.dfy ===
/** `ShopItemManager`: the validate-then-insert rule of `add_item`, the
    query by item type, the total price, and the two decorators that turn
    every decorated call into exactly one line of output. The manager's
    state is the table together with the lines printed so far. */
module ShopItems {
  import opened Results
  import Ascii
  import opened Dates
  import opened ItemTable

  /** A Python number as the caller passes it: `isinstance(price, float)`
      tells the two apart whatever their values. */
  datatype Number = Int(i: int) | Float(f: real)

  /** The six arguments of `add_item`. */
  datatype ItemInput = ItemInput(
    name: string,
    amount: int,
    price: Number,
    bestBefore: string,
    dateEntered: string,
    itemType: string)

  /** The table behind the connection and everything printed so far. */
  datatype Manager = Manager(table: Table, log: seq<string>)

  const NegativeAmountMessage := "Amount can't be negative"
  const PriceNotFloatMessage := "Price should be a float"
  // The two long messages are written as two literals each: the verifier
  // does not see the length or the characters of a single literal this long.
  const BadBestBeforeMessage := "Invalid best before date format. " + "Should be YYYY-MM-DD"
  const BadDateEnteredMessage := "Invalid date entered format. " + "Should be YYYY-MM-DD HH:MM:SS"

  /** `ShopItemManager()` on a fresh database file: an empty table, nothing
      printed (`create_table` is not decorated). */
  function Init(): (m: Manager)
    ensures Inv(m)
    ensures m.table.rows == [] && m.log == []
  {
    Manager(Empty(), [])
  }

  /** What every stored row went through at insert time. */
  predicate RowOk(r: Row) {
    && Ascii.IsUpperCase(r.name)
    && 0 <= r.amount <= MaxInteger
    && IsDateText(r.bestBefore)
    && IsDateTimeText(r.dateEntered)
  }

  /** The manager invariant: the ids are as `AUTOINCREMENT` hands them out
      and every row passed validation. */
  predicate Inv(m: Manager) {
    && Valid(m.table)
    && forall i :: 0 <= i < |m.table.rows| ==> RowOk(m.table.rows[i])
  }

  // ---------------------------------------------------------------------
  // The decorators

  /** The line `log_handler` prints after `fnName` returns. */
  function LoggingLine(fnName: string): string {
    "Logging: " + fnName + " executed"
  }

  /** The line `error_handler` prints for a swallowed exception. */
  function ErrorLine(e: Exception): string {
    "Error occurred: " + e.message
  }

  /** The outcome of a call together with the lines printed during it. */
  datatype Traced<+T> = Traced(out: Result<T>, lines: seq<string>)

  /** `log_handler`: the logging line is printed only after the wrapped
      function has returned; an exception passes straight through. */
  function LogHandler<T>(fnName: string, out: Result<T>): (r: Traced<T>)
    ensures r.out == out
    ensures out.Success? ==> r.lines == [LoggingLine(fnName)]
    ensures out.Failure? ==> r.lines == []
  {
    match out
    case Success(v) => Traced(Success(v), [LoggingLine(fnName)])
    case Failure(e) => Traced(Failure(e), [])
  }

  /** `error_handler`: an exception is printed and swallowed, and the call
      returns `None`. */
  function ErrorHandler<T>(t: Traced<T>): (r: (Option<T>, seq<string>))
    ensures t.out.Success? ==> r == (Some(t.out.value), t.lines)
    ensures t.out.Failure? ==> r == (None, t.lines + [ErrorLine(t.out.error)])
  {
    match t.out
    case Success(v) => (Some(v), t.lines)
    case Failure(e) => (None, t.lines + [ErrorLine(e)])
  }

  /** A method under `@error_handler @log_handler`: exactly one line is
      printed, the logging line on success and the error line on failure,
      and a failure comes back as `None`. */
  function Decorated<T>(fnName: string, out: Result<T>): (r: (Option<T>, seq<string>))
    ensures |r.1| == 1
    ensures out.Success? ==> r.0 == Some(out.value) && r.1[0] == LoggingLine(fnName)
    ensures out.Failure? ==> r.0 == None && r.1[0] == ErrorLine(out.error)
  {
    ErrorHandler(LogHandler(fnName, out))
  }

  /** The two kinds of line can never be confused with each other. */
  lemma LogLinesDistinct(fnName: string, e: Exception)
    ensures LoggingLine(fnName) != ErrorLine(e)
  {
    assert LoggingLine(fnName)[0] == 'L';
    assert ErrorLine(e)[0] == 'E';
  }

  // ---------------------------------------------------------------------
  // add_item

  /** A `datetime` object is always truthy. */
  predicate Truthy(d: DateTime) {
    true
  }

  /** `if not datetime.strptime(...): raise ValueError(message)`. A failed
      parse raises from `strptime` itself; a successful one yields a truthy
      object, so `message` is never raised. */
  function CheckDate(parsed: Result<DateTime>, message: string): (r: Result<()>)
    ensures r.Success? <==> parsed.Success?
    ensures r.Failure? ==> r.error == parsed.error
  {
    match parsed
    case Failure(e) => Failure(e)
    case Success(d) => if !Truthy(d) then Failure(ValueError(message)) else Success(())
  }

  /** Independent statement of when `add_item` stores a row: all four field
      rules hold, the amount fits a SQLite INTEGER, and the id space is not
      used up. */
  predicate Accepted(t: Table, inp: ItemInput) {
    && 0 <= inp.amount <= MaxInteger
    && inp.price.Float?
    && IsDateText(inp.bestBefore)
    && IsDateTimeText(inp.dateEntered)
    && t.nextId <= MaxRowId
  }

  /** The row a successful `add_item` appends. */
  function NewRow(t: Table, inp: ItemInput): Row
    requires inp.price.Float?
  {
    Row(t.nextId, Ascii.Upper(inp.name), inp.amount, inp.price.f,
        inp.bestBefore, inp.dateEntered, inp.itemType)
  }

  /** The body of `add_item`: normalise the name, run the checks in source
      order, and insert only when all of them pass. */
  function AddItemBody(t: Table, inp: ItemInput): (r: Result<Table>)
    ensures r.Success? <==> Accepted(t, inp)
    ensures r.Success? ==> r.value.rows == t.rows + [NewRow(t, inp)] && r.value.nextId == t.nextId + 1
  {
    var name := Ascii.Upper(inp.name);
    if inp.amount < 0 then Failure(ValueError(NegativeAmountMessage))
    else if !inp.price.Float? then Failure(ValueError(PriceNotFloatMessage))
    else
      var _ :- CheckDate(StrptimeDate(inp.bestBefore), BadBestBeforeMessage);
      var _ :- CheckDate(StrptimeDateTime(inp.dateEntered), BadDateEnteredMessage);
      Insert(t, name, inp.amount, inp.price.f, inp.bestBefore, inp.dateEntered, inp.itemType)
  }

  /** The decorated `add_item`. It returns `None` either way; its effect is
      the table it leaves and the one line it prints. */
  function AddItem(m: Manager, inp: ItemInput): (m': Manager)
    ensures |m'.log| == |m.log| + 1 && m'.log[..|m.log|] == m.log
    ensures m'.log[|m.log|] == LoggingLine("add_item") <==> Accepted(m.table, inp)
    ensures Accepted(m.table, inp) ==> m'.table.rows == m.table.rows + [NewRow(m.table, inp)]
    ensures Accepted(m.table, inp) ==> m'.table.nextId == m.table.nextId + 1
    ensures !Accepted(m.table, inp) ==> m'.table == m.table
  {
    var (res, lines) := Decorated("add_item", AddItemBody(m.table, inp));
    Manager(if res.Some? then res.value else m.table, m.log + lines)
  }

  /** The whole effect of a successful `add_item`: one row appended, the
      counter advanced, one logging line printed. */
  lemma AddItemStores(m: Manager, inp: ItemInput)
    requires Accepted(m.table, inp)
    ensures AddItem(m, inp) ==
      Manager(Table(m.table.rows + [NewRow(m.table, inp)], m.table.nextId + 1), m.log + [LoggingLine("add_item")])
  {
    var m' := AddItem(m, inp);
    assert m'.log == m.log + [m'.log[|m.log|]];
  }

  /** The checks run in source order and the first one that fails decides the
      message; whenever one fails, nothing is written. */
  lemma AddItemCheckOrder(m: Manager, inp: ItemInput)
    ensures var m' := AddItem(m, inp);
      var line := m'.log[|m.log|];
      && (inp.amount < 0 ==>
            line == ErrorLine(ValueError(NegativeAmountMessage)))
      && (inp.amount >= 0 && !inp.price.Float? ==>
            line == ErrorLine(ValueError(PriceNotFloatMessage)))
      && (inp.amount >= 0 && inp.price.Float? && !IsDateText(inp.bestBefore) ==>
            line == ErrorLine(ParseError(inp.bestBefore, DateFormat)))
      && (inp.amount >= 0 && inp.price.Float? && IsDateText(inp.bestBefore)
          && !IsDateTimeText(inp.dateEntered) ==>
            line == ErrorLine(ParseError(inp.dateEntered, DateTimeFormat)))
      && (inp.amount >= 0 && inp.price.Float? && IsDateText(inp.bestBefore)
          && IsDateTimeText(inp.dateEntered) && inp.amount > MaxInteger ==>
            line == ErrorLine(OverflowError(OverflowMessage)))
      && (inp.amount >= 0 && inp.price.Float? && IsDateText(inp.bestBefore)
          && IsDateTimeText(inp.dateEntered) && inp.amount <= MaxInteger
          && m.table.nextId > MaxRowId ==>
            line == ErrorLine(OperationalError(FullMessage)))
  {
  }

  /** An amount of zero is not negative: with the other fields valid, the
      row is stored. */
  lemma ZeroAmountAccepted(m: Manager, inp: ItemInput)
    requires inp.amount == 0 && inp.price.Float?
    requires IsDateText(inp.bestBefore) && IsDateTimeText(inp.dateEntered)
    requires m.table.nextId <= MaxRowId
    ensures AddItem(m, inp).table.rows == m.table.rows + [NewRow(m.table, inp)]
    ensures AddItem(m, inp).log == m.log + [LoggingLine("add_item")]
  {
  }

  /** An amount too large for a SQLite INTEGER passes the field checks but
      is refused when the INSERT binds it: only the error line is added. */
  lemma OversizedAmountRejected(m: Manager, inp: ItemInput)
    requires inp.amount > MaxInteger && inp.price.Float?
    requires IsDateText(inp.bestBefore) && IsDateTimeText(inp.dateEntered)
    ensures AddItem(m, inp) == m.(log := m.log + [ErrorLine(OverflowError(OverflowMessage))])
  {
    var m' := AddItem(m, inp);
    assert m'.log == m.log + [m'.log[|m.log|]];
  }

  /** An integer price is refused even when its value would be a valid
      price, provided the amount check has already passed. */
  lemma IntegerPriceRejected(m: Manager, inp: ItemInput)
    requires inp.amount >= 0 && inp.price.Int?
    ensures AddItem(m, inp) == m.(log := m.log + [ErrorLine(ValueError(PriceNotFloatMessage))])
  {
    var m' := AddItem(m, inp);
    assert m'.log == m.log + [m'.log[|m.log|]];
  }

  /** Two error lines are equal exactly when their messages are. */
  lemma ErrorLinesEqual(e1: Exception, e2: Exception)
    ensures ErrorLine(e1) == ErrorLine(e2) <==> e1.message == e2.message
  {
    var prefix := "Error occurred: ";
    assert ErrorLine(e1)[|prefix|..] == e1.message;
    assert ErrorLine(e2)[|prefix|..] == e2.message;
  }

  /** An error line for an exception whose message does not start with `I`
      is neither of the two custom date lines. */
  lemma NotCustomDateLine(e: Exception)
    requires |e.message| > 0 && e.message[0] != 'I'
    ensures ErrorLine(e) != ErrorLine(ValueError(BadBestBeforeMessage))
    ensures ErrorLine(e) != ErrorLine(ValueError(BadDateEnteredMessage))
  {
    assert BadBestBeforeMessage[0] == 'I';
    assert BadDateEnteredMessage[0] == 'I';
    ErrorLinesEqual(e, ValueError(BadBestBeforeMessage));
    ErrorLinesEqual(e, ValueError(BadDateEnteredMessage));
  }

  /** The messages written for the two date guards can never be printed: a
      bad date is reported by `strptime`'s own exception instead. */
  lemma CustomDateMessagesUnreachable(m: Manager, inp: ItemInput)
    ensures var line := AddItem(m, inp).log[|m.log|];
      && line != ErrorLine(ValueError(BadBestBeforeMessage))
      && line != ErrorLine(ValueError(BadDateEnteredMessage))
  {
    AddItemCheckOrder(m, inp);
    if Accepted(m.table, inp) {
      LogLinesDistinct("add_item", ValueError(BadBestBeforeMessage));
      LogLinesDistinct("add_item", ValueError(BadDateEnteredMessage));
    } else if inp.amount < 0 {
      NotCustomDateLine(ValueError(NegativeAmountMessage));
    } else if !inp.price.Float? {
      NotCustomDateLine(ValueError(PriceNotFloatMessage));
    } else if !IsDateText(inp.bestBefore) {
      NotCustomDateLine(ParseError(inp.bestBefore, DateFormat));
    } else if !IsDateTimeText(inp.dateEntered) {
      NotCustomDateLine(ParseError(inp.dateEntered, DateTimeFormat));
    } else if inp.amount > MaxInteger {
      assert OverflowMessage[0] == 'P';
      NotCustomDateLine(OverflowError(OverflowMessage));
    } else {
      NotCustomDateLine(OperationalError(FullMessage));
    }
  }

  /** `add_item` keeps the invariant: every stored name is upper case, every
      amount between 0 and 2^63 - 1, every date valid, and a new row's id is larger
      than all ids before it. */
  lemma AddItemKeepsInvariant(m: Manager, inp: ItemInput)
    requires Inv(m)
    ensures Inv(AddItem(m, inp))
    ensures Accepted(m.table, inp) ==>
      forall i :: 0 <= i < |m.table.rows| ==> m.table.rows[i].id < AddItem(m, inp).table.rows[|m.table.rows|].id
  {
    if Accepted(m.table, inp) {
      var row := NewRow(m.table, inp);
      InsertKeepsValid(m.table, row.name, row.amount, row.price, row.bestBefore, row.dateEntered, row.itemType);
    }
  }

  // ---------------------------------------------------------------------
  // get_items_by_type and calculate_total_price

  /** The decorated `get_items_by_type`: the matching rows, one logging line,
      and the table untouched. */
  function GetItemsByType(m: Manager, itemType: string): (r: (Manager, Option<seq<Row>>))
    ensures r.0.table == m.table
    ensures r.0.log == m.log + [LoggingLine("get_items_by_type")]
    ensures r.1.Some?
    ensures forall i :: 0 <= i < |r.1.value| ==> r.1.value[i].itemType == itemType && r.1.value[i] in m.table.rows
  {
    var (items, lines) := Decorated("get_items_by_type", Success(RowsOfType(m.table.rows, itemType)));
    (Manager(m.table, m.log + lines), items)
  }

  /** The query returns exactly the stored rows of the requested type, in
      storage order, and an empty sequence when there are none. */
  lemma GetItemsByTypeExact(m: Manager, itemType: string, x: Row)
    requires Inv(m)
    ensures var items := GetItemsByType(m, itemType).1.value;
      && (x in items <==> x in m.table.rows && x.itemType == itemType)
      && IdsIncreasing(items)
      && (items == [] <==> forall i :: 0 <= i < |m.table.rows| ==> m.table.rows[i].itemType != itemType)
  {
    RowsOfTypeMembers(m.table.rows, itemType, x);
    RowsOfTypeOrdered(m.table.rows, itemType);
    RowsOfTypeEmpty(m.table.rows, itemType);
  }

  /** Inserting and then querying by the new item's type returns what was
      there before followed by the new row, whose name is upper-cased. */
  lemma AddThenQuery(m: Manager, inp: ItemInput)
    requires Accepted(m.table, inp)
    ensures var items := GetItemsByType(AddItem(m, inp), inp.itemType).1.value;
      && items == GetItemsByType(m, inp.itemType).1.value + [NewRow(m.table, inp)]
      && items[|items| - 1].name == Ascii.Upper(inp.name)
  {
    var row := NewRow(m.table, inp);
    AddItemStores(m, inp);
    assert AddItem(m, inp).table.rows == m.table.rows + [row];
    RowsOfTypeAppend(m.table.rows, [row], inp.itemType);
    RowsOfTypeSingleton(row, inp.itemType);
  }

  /** `calculate_total_price` (not decorated): Python's `sum` starts from the
      integer 0, so an empty table gives `Int(0)` and otherwise a float. */
  function CalculateTotalPrice(m: Manager): (n: Number)
    ensures n.Int? <==> m.table.rows == []
    ensures n.Int? ==> n.i == 0
  {
    if |m.table.rows| == 0 then Int(0) else Float(SumPrices(m.table.rows))
  }

  function AsReal(n: Number): real {
    match n
    case Int(i) => i as real
    case Float(f) => f
  }

  /** The total is zero on a fresh store, grows by exactly the stored price
      on a successful `add_item`, and is unchanged by a failed one. */
  lemma TotalPriceAfterAddItem(m: Manager, inp: ItemInput)
    ensures CalculateTotalPrice(Init()) == Int(0)
    ensures Accepted(m.table, inp) ==>
      CalculateTotalPrice(AddItem(m, inp)) == Float(AsReal(CalculateTotalPrice(m)) + inp.price.f)
    ensures !Accepted(m.table, inp) ==> CalculateTotalPrice(AddItem(m, inp)) == CalculateTotalPrice(m)
  {
    if Accepted(m.table, inp) {
      var row := NewRow(m.table, inp);
      SumPricesAppend(m.table.rows, [row]);
      assert SumPrices([row]) == row.price by {
        assert [row][..0] == [];
      }
    }
  }
}
